=== FILE: README.md ===
# dirscan — a Dafny model of the scan core

dirscan probes a web host for reachable paths: it reads a word list, sends
one GET or HEAD request per path under a rate limit and a concurrency limit,
tags each response whose body is a near-duplicate of an earlier one with
"[DEDUP]" in its log (the result itself is kept), and writes the
ordered results as JSON or as a SARIF 2.1.0 log.

This project models the sequential logic of that core in Dafny 4.11:

- `dedup.dfy` (module `Dedup`): the deduplicator as a state record (seen
  digests, kept samples, threshold) and `is_duplicate` as one transition. The
  xxh64 digest, the lossy byte-to-text decoding and the similarity ratio are
  function-valued fields of a `Library` value, about which nothing is assumed.
- `cli.dfy` (module `Cli`): method check, word-list normalisation, full-URL
  construction, the record of one probe (including the error sentinel), the
  scan as a fold over the paths threading the deduplicator, the same scan with
  probes finishing in an arbitrary order (`Gather`), the report choice, and the
  whole command (`Run`). The HTTP client is an oracle from a probe (position,
  method, URL) to a reply.
- `format.dfy` (module `Format`): the result record and the SARIF log built
  from the records, plus a reader that recovers the records from the log.
- `strings.dfy`, `decimal.dfy`, `wrappers.dfy`: Python's `strip`, `rstrip`,
  `lower`, `replace` and `str(int)`, and an `Option` type.

The record of a probe never depends on the deduplicator: `Fetch` returns the
reference record `Job.Expected(i)` whatever the state it is given. Hence the
result list equals `Job.ExpectedResults()` both for the in-order fold (`Scan`)
and for every completion order (`Gather`), and the set of digests seen at the
end is the same in both. Which probe gets flagged as a duplicate does depend
on the order; the model makes no claim about it.

The SARIF datatypes follow what `to_sarif` builds: a result's `locations`
holds physical locations directly, while section 3.28 of SARIF 2.1.0 expects
location objects wrapping a `physicalLocation`. The model keeps the shape the
code writes.

Any `--format` other than exactly `"json"` produces SARIF, although the
option's help text (src/dirscan/cli.py:32) names only json and sarif; the
model follows the code. The similarity ratio is not assumed to be symmetric,
nor to be 1 on equal texts.

## Model

| member | source | states |
|---|---|---|
| Dedup.New | src/dirscan/dedup.py:16-19 | a fresh deduplicator has seen no digest, kept no sample, and holds the given threshold |
| Dedup.AnySimilar | src/dirscan/dedup.py:28-30 | the sample loop answers true exactly when some kept sample is strictly more than the threshold similar to the text |
| Dedup.IsDuplicate | src/dirscan/dedup.py:21-32 | a seen digest answers true and changes nothing; the digest is always recorded and is the only digest added; the answer is false exactly when the digest is new and no sample is over the threshold, and exactly when the decoded text is appended; a true answer leaves the samples unchanged |
| Dedup.FirstCallIsNotDuplicate | src/dirscan/dedup.py:16-32 | on a fresh deduplicator the first body is not a duplicate and becomes the only sample |
| Dedup.RepeatIsDuplicate | src/dirscan/dedup.py:22-25 | the same body twice in a row: the second call answers true |
| Dedup.NewIsValid | src/dirscan/dedup.py:16-18 | a fresh deduplicator satisfies the invariant |
| Dedup.IsDuplicateKeepsValid | src/dirscan/dedup.py:25-31 | every call keeps the invariant: no more samples than seen digests, and each sample at most threshold-similar to every sample kept before it |
| Dedup.Feed | src/dirscan/dedup.py:21-32 | over a series of calls the seen set and the sample list only grow (old samples stay a prefix) and the threshold is fixed |
| Dedup.FeedSeenHash | src/dirscan/dedup.py:22-25 | after a series of calls the seen set is exactly the old set plus the digests of the bodies shown, independent of their order |
| Dedup.FeedSamplesFromBodies | src/dirscan/dedup.py:27-31 | every sample added during a series of calls is the decoded text of one of the bodies shown |
| Dedup.FeedKeepsValid | src/dirscan/dedup.py:21-32 | a series of calls keeps the invariant |
| Dedup.FeedSnoc | src/dirscan/dedup.py:21-32 | showing one more body after a series is the same as one further call on the state the series left |
| Strings.TrimEnd | src/dirscan/cli.py:93 | `rstrip`: the result is a prefix, ends in a kept character or is empty, and only dropped characters were removed |
| Strings.TrimEndUnique | src/dirscan/cli.py:93 | `rstrip` gives the only prefix with those three properties |
| Strings.TrimEndIdempotent | src/dirscan/cli.py:93 | stripping trailing '/' again changes nothing |
| Strings.Strip | src/dirscan/cli.py:73 | `strip()` leaves no whitespace at either end |
| Strings.StripIsInnerSlice | src/dirscan/cli.py:73 | `strip()` returns a slice of the line with only whitespace outside it |
| Strings.StripIdempotent | src/dirscan/cli.py:73 | stripping twice is stripping once |
| Strings.Lower | src/dirscan/cli.py:36 | `lower()`: same length, each character lowered on its own (ASCII letters only) |
| Strings.LowerIsWordIff | src/dirscan/cli.py:36 | lowering yields a lower-case word exactly when the input spells it in any mix of cases |
| Strings.ReplaceAll | src/dirscan/cli.py:118 | `replace` is left to right and non-overlapping; its meaning is pinned by `Strings.ReplaceAllAtFirstOccurrence` (an occurrence exists) and `Strings.ReplaceAllWithoutOccurrence` (none exists); the contract itself states only that replacing a pattern by itself changes nothing |
| Strings.ReplaceAllAtFirstOccurrence | src/dirscan/cli.py:118 | `replace` works left to right without overlaps: the text before the first occurrence is copied, that occurrence becomes the replacement, and the text after it is replaced in turn |
| Strings.ReplaceAllWithoutOccurrence | src/dirscan/cli.py:118 | `replace` leaves a string without the pattern unchanged |
| Strings.ReplaceJsonAfterPlain | src/dirscan/cli.py:118 | in a name with no '.' before a ".json", that ".json" becomes ".sarif" and the rest of the name is replaced in turn |
| Strings.ReplaceDefaultOutput | src/dirscan/cli.py:118 | the default output name "out.json" becomes "out.sarif" |
| Strings.ReplaceEveryJson | src/dirscan/cli.py:118 | every ".json" is replaced, not only the first: a name ending in ".json.json" ends in ".sarif.sarif" |
| Strings.ReplaceJsonLeavesNone | src/dirscan/cli.py:118 | after replacing ".json" by ".sarif" no ".json" is left |
| Strings.ReplaceJsonPath | src/dirscan/cli.py:118 | the SARIF path holds no ".json" and equals the given path when that had none |
| Decimal.NatToString | src/dirscan/format.py:29 | the digits of a natural number: non-empty, all decimal digits, no leading zero |
| Decimal.IntToString | src/dirscan/format.py:29 | `str(n)`: a '-' exactly for negative numbers, then one or more decimal digits with no leading zero (with `Decimal.IntRoundTrip` this fixes the text) |
| Decimal.IntRoundTrip | src/dirscan/format.py:29 | reading the rendered number gives the number back |
| Decimal.NatParsesBack | src/dirscan/format.py:29 | the decimal text of a natural number parses back to that number |
| Decimal.NegativeRoundTrip | src/dirscan/format.py:29 | '-' followed by the digits of a positive number parses back to its negation |
| Format.StatusText | src/dirscan/format.py:29 | the status text is the sentinel exactly for a failed request, and the canonical decimal rendering of the code otherwise |
| Format.StatusRoundTrip | src/dirscan/format.py:29 | the status can be read back from its text |
| Format.ResultsFor | src/dirscan/format.py:24-34 | one SARIF result per record, at the record's position |
| Format.ToSarif | src/dirscan/format.py:18-35 | version "2.1.0", one run whose driver is dirscan 0.1.0, one result per record in order, each with rule id "dirscan/leak", level "warning", text `url -> status` and exactly one location whose URI is the url |
| Format.MessageRoundTrip | src/dirscan/format.py:29 | the message text starts with `url -> ` and the status reads back from the rest of it |
| Format.ResultFor | src/dirscan/format.py:26-33 | rule id "dirscan/leak", level "warning", one location whose URI is the url, the message text `url -> status`, and the record reads back from the result |
| Format.SarifRoundTrip | src/dirscan/format.py:18-35 | every record, in order, can be read back from the log: the mapping loses nothing |
| Cli.ParseMethod | src/dirscan/cli.py:35-39 | GET exactly when the lowered method is "get", HEAD exactly when it is "head", rejected otherwise |
| Cli.ParseMethodIgnoresCase | src/dirscan/cli.py:35-39 | a method is accepted exactly when it spells "get" or "head" in any mix of cases |
| Cli.PathOfLine | src/dirscan/cli.py:73 | a line contributes at most one path, which is non-empty and has no surrounding whitespace |
| Cli.PathList | src/dirscan/cli.py:73 | no more paths than lines; every path is non-empty with no leading or trailing whitespace |
| Cli.PathListOfLine | src/dirscan/cli.py:73 | one line yields its stripped text, or nothing when that is empty |
| Cli.PathListAppend | src/dirscan/cli.py:73 | the path list of two concatenated word lists is the concatenation of their path lists, so order and repeats are kept |
| Cli.FullUrl | src/dirscan/cli.py:93 | the URL ends with the path; before it comes the base with exactly its trailing '/' removed |
| Cli.FullUrlBaseIsStripped | src/dirscan/cli.py:93 | the base part of the URL has no trailing '/' left to strip |
| Cli.Fetch | src/dirscan/cli.py:87-110 | the record is the reference record of the path whatever the deduplicator state; a failed request gives the sentinel; only an answered GET consults the deduplicator, and then the new state and flag are those of `is_duplicate`; otherwise the state is unchanged |
| Cli.FetchRecordIgnoresDedup | src/dirscan/cli.py:99-106 | both dedup branches return the same record |
| Cli.ScanFrom | src/dirscan/cli.py:113 | one record per remaining path, at its position; a HEAD scan leaves the deduplicator alone |
| Cli.Scan | src/dirscan/cli.py:113 | the result list is the list of reference records, one per path, in path order |
| Cli.ScanFeedsInspectedBodies | src/dirscan/cli.py:99-101 | in path order, the deduplicator is shown exactly the bodies of answered GET probes |
| Cli.ScanKeepsValid | src/dirscan/cli.py:99-113 | a scan keeps the deduplicator invariant |
| Cli.ScanFromSeenHash | src/dirscan/cli.py:99-113 | the digests seen after a scan are the digests of the inspected bodies |
| Cli.SeenAlongAll | src/dirscan/cli.py:113 | once all probes finished, the digests seen do not depend on the completion order |
| Cli.Gather | src/dirscan/cli.py:87-113 | for any completion order, result i is the record of path i; the final deduplicator is the one obtained by feeding it the probes in completion order; a HEAD scan leaves it alone; its seen digests are those of the in-order scan; and if the invariant held at the start it holds at the end |
| Cli.FoldAlongIsFeed | src/dirscan/cli.py:99-113 | fetching the probes one after another in completion order shows the deduplicator exactly the GET bodies of those probes, in that order |
| Cli.BodiesAlongDigests | src/dirscan/cli.py:99-113 | the digests of the bodies shown along a completion order are the digests of the inspected replies finished so far |
| Cli.Collect | src/dirscan/cli.py:113 | once every probe of a completion order has written its slot, reading the slots in path order gives the records of the paths in path order |
| Cli.GatheredHead | src/dirscan/cli.py:99-101 | a HEAD scan, finished in any order, leaves the deduplicator as it was |
| Cli.GatheredSeenHash | src/dirscan/cli.py:99-113 | finished in any order, a scan leaves the deduplicator with the old digests plus those of every inspected reply, as the in-order scan does |
| Cli.GatheredValid | src/dirscan/cli.py:99-113 | finished in any order, a scan keeps the deduplicator invariant |
| Cli.ChooseOutput | src/dirscan/cli.py:114-119 | JSON to the given path exactly when the format is "json"; otherwise SARIF to the given path with every ".json" replaced by ".sarif", which leaves no ".json" (and no change if it had none), holding exactly the SARIF log built from the results, from which the records read back |
| Cli.Run | src/dirscan/cli.py:35-119 | no scan when the method is rejected; otherwise the reference results, the chosen report, a deduplicator with threshold 0.9 that keeps its invariant, and an untouched one for HEAD |
| Cli.RunResultIsProbeOfPath | src/dirscan/cli.py:93-113 | one result per path; result i has the URL built from path i and the status of that probe's reply, or the sentinel when it failed |

## Left out

- The token producer and rate limiter (src/dirscan/cli.py:52-62, 74-83, 88-90): timing and queue backpressure; the model has no clock.
- The semaphore (src/dirscan/cli.py:85, 92): it bounds concurrency only; `Gather` covers every order in which probes may finish.
- The HTTP client and its 10-second timeout (src/dirscan/cli.py:69-71, 96): replaced by the reply oracle; any exception it raises is a `TransportError` reply.
- Reading the word-list file and splitting it into lines (src/dirscan/cli.py:72): the model starts from the list of lines.
- xxh64, `bytes.decode(errors="ignore")` and `SequenceMatcher.ratio` (src/dirscan/dedup.py:7-12, 27): library code, kept uninterpreted; the ratio is a `real`, not a float.
- `to_json`, the JSON text of the SARIF log and the file writes (src/dirscan/format.py:8-10, 36-39; src/dirscan/cli.py:115-116): serialisation and I/O; the report is modelled as a value.
- Cli.Fetch: assumes the log calls at src/dirscan/cli.py:102 and 105 never raise. In the source they sit inside the `try`: if one raises, for example a console that cannot encode the URL, an answered probe gets the "异常" sentinel, and for GET the deduplicator has already been updated. `Fetch` instead promises the sentinel exactly for a failed request. The model also assumes the log call in the handler (line 109) never raises; when it does, the exception escapes `asyncio.gather` and no report is written, whereas `Run` always yields one.
- Logging (src/dirscan/logger.py and the `logger.info` calls) and the message printed before exiting on a bad method: console and file output. `Fetched.flagged` records which log line a probe gets.
- Option parsing, defaults and bounds (src/dirscan/cli.py:16-34): done by the Typer library.
- Strings.Lower: maps only ASCII letters; no other character lowers to a letter of "get" or "head", so which methods are accepted is exact.
- Which path is flagged as a duplicate when probes finish out of order: it depends on completion order, and the model states nothing about it.

=== FILE: cli.dfy ===
/**
 * Model of the scan command (src/dirscan/cli.py) without its concurrency:
 * method check, word-list normalisation, URL construction, one result record
 * per path, and the choice of report.
 *
 * The HTTP client is an oracle from a probe to its reply. A probe carries its
 * position in the path list, so two equal paths are two independent requests.
 * The rate limiter and the semaphore only decide when a probe runs; `Gather`
 * lets the probes finish in any order and shows that this order changes
 * neither the result list nor the set of digests the deduplicator has seen.
 */
module Cli {
  import opened Wrappers
  import opened Strings
  import Dedup
  import opened Format

  datatype Method = Get | Head

  /** The `--method` value, lower-cased; only "get" and "head" run a scan. */
  function ParseMethod(methods: string): (m: Option<Method>)
    ensures m == Some(Get) <==> Lower(methods) == "get"
    ensures m == Some(Head) <==> Lower(methods) == "head"
    ensures m == None <==> Lower(methods) != "get" && Lower(methods) != "head"
  {
    var verb := Lower(methods);
    if verb == "get" then Some(Get) else if verb == "head" then Some(Head) else None
  }

  /** A method is accepted exactly when it spells "get" or "head" in any mix of cases. */
  lemma ParseMethodIgnoresCase(methods: string)
    ensures ParseMethod(methods).Some? <==>
      SpellsIgnoringCase(methods, "get") || SpellsIgnoringCase(methods, "head")
  {
    LowerIsWordIff(methods, "get");
    LowerIsWordIff(methods, "head");
  }

  /** A candidate path: non-empty, with no whitespace at either end. */
  predicate IsPath(p: string) {
    p != [] && !IsSpace(p[0]) && !IsSpace(p[|p| - 1])
  }

  /** What one line of the word list contributes: its stripped text, unless that is empty. */
  function PathOfLine(line: string): (ps: seq<string>)
    ensures |ps| <= 1
    ensures forall k :: 0 <= k < |ps| ==> IsPath(ps[k])
  {
    var p := Strip(line);
    if p == [] then [] else [p]
  }

  /** `[l.strip() for l in f if l.strip()]` over the lines of the word list. */
  function PathList(lines: seq<string>): (paths: seq<string>)
    ensures |paths| <= |lines|
    ensures forall k :: 0 <= k < |paths| ==> IsPath(paths[k])
    decreases |lines|
  {
    if lines == [] then [] else PathOfLine(lines[0]) + PathList(lines[1..])
  }

  /** A single line contributes its stripped text, or nothing when that is empty. */
  lemma PathListOfLine(line: string)
    ensures PathList([line]) == if Strip(line) == [] then [] else [Strip(line)]
  {
    assert [line][1..] == [];
  }

  /** The path list of concatenated word lists is the concatenation: order and repeats are kept. */
  lemma {:induction false} PathListAppend(a: seq<string>, b: seq<string>)
    ensures PathList(a + b) == PathList(a) + PathList(b)
    decreases |a|
  {
    if a == [] {
      assert a + b == b;
    } else {
      assert (a + b)[0] == a[0];
      assert (a + b)[1..] == a[1..] + b;
      PathListAppend(a[1..], b);
      calc {
        PathList(a + b);
        PathOfLine(a[0]) + PathList(a[1..] + b);
        PathOfLine(a[0]) + (PathList(a[1..]) + PathList(b));
        (PathOfLine(a[0]) + PathList(a[1..])) + PathList(b);
      }
    }
  }

  /** `f"{url.rstrip('/')}{p}"`. */
  function FullUrl(base: string, p: string): (u: string)
    ensures |p| <= |u| <= |base| + |p| && u[|u| - |p|..] == p
    ensures var n := |u| - |p|;
      && u[..n] == base[..n]
      && (n == 0 || base[n - 1] != '/')
      && forall k :: n <= k < |base| ==> base[k] == '/'
  {
    var b := TrimEnd(base, IsSlash);
    assert (b + p)[..|b|] == b;
    b + p
  }

  /** The base part of a full URL has no trailing '/', so stripping it again changes nothing. */
  lemma FullUrlBaseIsStripped(base: string, p: string)
    ensures var u := FullUrl(base, p);
      TrimEnd(u[..|u| - |p|], IsSlash) == u[..|u| - |p|]
  {
    var u := FullUrl(base, p);
    var n := |u| - |p|;
    assert u[..n] == base[..n];
    TrimEndUnique(u[..n], IsSlash, u[..n]);
  }

  /** What the HTTP client returns for one request. */
  datatype Reply = Answered(statusCode: int, content: Dedup.Bytes) | TransportError

  /** One request: the position of its path, the method and the full URL. */
  datatype Probe = Probe(index: nat, verb: Method, url: string)

  /** Everything a scan needs: library routines, network oracle, method, base URL, paths. */
  datatype Job = Job(lib: Dedup.Library, network: Probe -> Reply, verb: Method, base: string, paths: seq<string>)
  {
    function Url(i: nat): string
      requires i < |paths|
    {
      FullUrl(base, paths[i])
    }

    function ReplyAt(i: nat): Reply
      requires i < |paths|
    {
      network(Probe(i, verb, Url(i)))
    }

    /** The record the probe of path `i` stands for, independent of any deduplication. */
    function Expected(i: nat): Record
      requires i < |paths|
    {
      match ReplyAt(i)
      case Answered(status, _) => Record(Url(i), Code(status))
      case TransportError => Record(Url(i), Failed)
    }

    function ExpectedResults(): seq<Record> {
      seq(|paths|, i requires 0 <= i < |paths| => Expected(i))
    }

    /** The probe of path `i` hands a body to the deduplicator. */
    predicate Inspects(i: nat)
      requires i < |paths|
    {
      verb == Get && ReplyAt(i).Answered?
    }

    /** Digests of the bodies inspected by the probes of paths `i..`. */
    ghost function DigestsFrom(i: nat): set<Dedup.Digest> {
      set k | i <= k < |paths| && Inspects(k) :: lib.digest(ReplyAt(k).content)
    }

    /** Bodies inspected by the probes of paths `i..`, in path order. */
    function InspectedFrom(i: nat): seq<Dedup.Bytes>
      requires i <= |paths|
      decreases |paths| - i
    {
      if i == |paths| then []
      else (if Inspects(i) then [ReplyAt(i).content] else []) + InspectedFrom(i + 1)
    }
  }

  /** The record of one probe, whether the deduplicator flagged it, and the deduplicator after it. */
  datatype Fetched = Fetched(record: Record, flagged: bool, dedup: Dedup.State)

  /** `fetch(p)` for the path at position `i`, once it holds its token and its semaphore slot. */
  function Fetch(job: Job, i: nat, d: Dedup.State): (f: Fetched)
    requires i < |job.paths|
    ensures f.record == job.Expected(i)
    ensures f.record.url == job.Url(i)
    ensures f.record.status.Failed? <==> job.ReplyAt(i).TransportError?
    ensures f.dedup.threshold == d.threshold
    ensures !job.Inspects(i) ==> f.dedup == d && !f.flagged
    ensures job.Inspects(i) ==>
      var v := Dedup.IsDuplicate(job.lib, d, job.ReplyAt(i).content);
      f.dedup == v.next && f.flagged == v.duplicate
  {
    var url := job.Url(i);
    match job.network(Probe(i, job.verb, url))
    case TransportError => Fetched(Record(url, Failed), false, d)
    case Answered(status, content) =>
      if job.verb == Get then
        var v := Dedup.IsDuplicate(job.lib, d, content);
        if v.duplicate then Fetched(Record(url, Code(status)), true, v.next)
        else Fetched(Record(url, Code(status)), false, v.next)
      else Fetched(Record(url, Code(status)), false, d)
  }

  /** The verdict of the deduplicator never changes the record. */
  lemma FetchRecordIgnoresDedup(job: Job, i: nat, d1: Dedup.State, d2: Dedup.State)
    requires i < |job.paths|
    ensures Fetch(job, i, d1).record == Fetch(job, i, d2).record
  {
  }

  datatype Scanned = Scanned(results: seq<Record>, dedup: Dedup.State)

  /** The probes of paths `i..` run one after another, in path order. */
  function ScanFrom(job: Job, i: nat, d: Dedup.State): (s: Scanned)
    requires i <= |job.paths|
    ensures |s.results| == |job.paths| - i
    ensures forall k :: 0 <= k < |s.results| ==> s.results[k] == job.Expected(i + k)
    ensures job.verb == Head ==> s.dedup == d
    ensures s.dedup.threshold == d.threshold
    decreases |job.paths| - i
  {
    if i == |job.paths| then Scanned([], d)
    else
      var f := Fetch(job, i, d);
      var rest := ScanFrom(job, i + 1, f.dedup);
      Scanned([f.record] + rest.results, rest.dedup)
  }

  /** `asyncio.gather(*(fetch(p) for p in paths))`, with the probes finishing in path order. */
  function Scan(job: Job, d: Dedup.State): (s: Scanned)
    ensures s.results == job.ExpectedResults()
    ensures job.verb == Head ==> s.dedup == d
    ensures s.dedup.threshold == d.threshold
  {
    ScanFrom(job, 0, d)
  }

  /** In path order, the deduplicator sees exactly the bodies of the GET probes that got a reply. */
  lemma {:induction false} ScanFeedsInspectedBodies(job: Job, i: nat, d: Dedup.State)
    requires i <= |job.paths|
    ensures ScanFrom(job, i, d).dedup == Dedup.Feed(job.lib, d, job.InspectedFrom(i))
    decreases |job.paths| - i
  {
    if i < |job.paths| {
      var f := Fetch(job, i, d);
      ScanFeedsInspectedBodies(job, i + 1, f.dedup);
      assert ScanFrom(job, i, d).dedup == ScanFrom(job, i + 1, f.dedup).dedup;
      var bodies := job.InspectedFrom(i);
      if job.Inspects(i) {
        assert bodies[0] == job.ReplyAt(i).content && bodies[1..] == job.InspectedFrom(i + 1);
        assert Dedup.Feed(job.lib, d, bodies) == Dedup.Feed(job.lib, f.dedup, bodies[1..]);
      } else {
        assert bodies == job.InspectedFrom(i + 1);
      }
    }
  }

  /** A scan leaves the deduplicator's invariant intact. */
  lemma ScanKeepsValid(job: Job, d: Dedup.State)
    requires Dedup.Valid(job.lib, d)
    ensures Dedup.Valid(job.lib, Scan(job, d).dedup)
  {
    ScanFeedsInspectedBodies(job, 0, d);
    Dedup.FeedKeepsValid(job.lib, d, job.InspectedFrom(0));
  }

  /** The digests seen after a scan from `i` are those of the inspected bodies from `i`. */
  lemma {:induction false} ScanFromSeenHash(job: Job, i: nat, d: Dedup.State)
    requires i <= |job.paths|
    ensures ScanFrom(job, i, d).dedup.seenHash == d.seenHash + job.DigestsFrom(i)
    decreases |job.paths| - i
  {
    if i < |job.paths| {
      var f := Fetch(job, i, d);
      ScanFromSeenHash(job, i + 1, f.dedup);
      if job.Inspects(i) {
        assert job.DigestsFrom(i) == job.DigestsFrom(i + 1) + {job.lib.digest(job.ReplyAt(i).content)};
      } else {
        assert job.DigestsFrom(i) == job.DigestsFrom(i + 1);
      }
    }
  }

  /** Every index below `n` appears in `order`, and `order` holds nothing else. */
  predicate CompletionOrder(order: seq<nat>, n: nat) {
    && |order| == n
    && (forall k :: 0 <= k < |order| ==> order[k] < n)
    && (forall i :: 0 <= i < n ==> i in order)
  }

  /** The bodies shown to the deduplicator by the first `j` probes to finish, in that order. */
  function BodiesAlong(job: Job, order: seq<nat>, j: nat): seq<Dedup.Bytes>
    requires j <= |order|
    requires forall k :: 0 <= k < |order| ==> order[k] < |job.paths|
  {
    if j == 0 then []
    else if job.Inspects(order[j - 1]) then BodiesAlong(job, order, j - 1) + [job.ReplyAt(order[j - 1]).content]
    else BodiesAlong(job, order, j - 1)
  }

  /** A HEAD scan shows the deduplicator nothing. */
  lemma {:induction false} BodiesAlongHead(job: Job, order: seq<nat>, j: nat)
    requires j <= |order|
    requires forall k :: 0 <= k < |order| ==> order[k] < |job.paths|
    requires job.verb == Head
    ensures BodiesAlong(job, order, j) == []
  {
    if j > 0 {
      BodiesAlongHead(job, order, j - 1);
    }
  }

  /** The digests of the bodies shown along the completion order are those seen along it. */
  lemma {:induction false} BodiesAlongDigests(job: Job, order: seq<nat>, j: nat)
    requires j <= |order|
    requires forall k :: 0 <= k < |order| ==> order[k] < |job.paths|
    ensures (set b | b in BodiesAlong(job, order, j) :: job.lib.digest(b)) == SeenAlong(job, order, j)
  {
    if j > 0 {
      var prev := BodiesAlong(job, order, j - 1);
      assert (set x | x in prev :: job.lib.digest(x)) == SeenAlong(job, order, j - 1) by {
        BodiesAlongDigests(job, order, j - 1);
      }
      if job.Inspects(order[j - 1]) {
        var b := job.ReplyAt(order[j - 1]).content;
        assert SeenAlong(job, order, j) == SeenAlong(job, order, j - 1) + {job.lib.digest(b)} by {
          SeenAlongStep(job, order, j - 1);
        }
        DigestsOfSnoc(job.lib, prev, b);
      } else {
        assert SeenAlong(job, order, j) == SeenAlong(job, order, j - 1) by {
          SeenAlongStep(job, order, j - 1);
        }
      }
    }
  }

  lemma DigestsOfSnoc(lib: Dedup.Library, bodies: seq<Dedup.Bytes>, b: Dedup.Bytes)
    ensures (set x | x in bodies + [b] :: lib.digest(x)) == (set x | x in bodies :: lib.digest(x)) + {lib.digest(b)}
  {
  }

  /** A HEAD scan in any completion order leaves the deduplicator as it was. */
  lemma GatheredHead(job: Job, order: seq<nat>, d: Dedup.State)
    requires CompletionOrder(order, |job.paths|)
    requires job.verb == Head
    ensures FoldAlong(job, order, |order|, d) == d
  {
    FoldAlongIsFeed(job, order, |order|, d);
    BodiesAlongHead(job, order, |order|);
  }

  /** In any completion order the deduplicator ends up with the digests the in-order scan records. */
  lemma GatheredSeenHash(job: Job, order: seq<nat>, d: Dedup.State)
    requires CompletionOrder(order, |job.paths|)
    ensures FoldAlong(job, order, |order|, d).seenHash == Scan(job, d).dedup.seenHash
    ensures Scan(job, d).dedup.seenHash == d.seenHash + job.DigestsFrom(0)
  {
    FoldAlongIsFeed(job, order, |order|, d);
    Dedup.FeedSeenHash(job.lib, d, BodiesAlong(job, order, |order|));
    BodiesAlongDigests(job, order, |order|);
    SeenAlongAll(job, order);
    ScanFromSeenHash(job, 0, d);
  }

  /** In any completion order the deduplicator keeps its invariant. */
  lemma GatheredValid(job: Job, order: seq<nat>, d: Dedup.State)
    requires CompletionOrder(order, |job.paths|)
    requires Dedup.Valid(job.lib, d)
    ensures Dedup.Valid(job.lib, FoldAlong(job, order, |order|, d))
  {
    FoldAlongIsFeed(job, order, |order|, d);
    Dedup.FeedKeepsValid(job.lib, d, BodiesAlong(job, order, |order|));
  }

  /** The `j`-th probe to finish takes the deduplicator one body further along the completion order. */
  lemma FetchFeedsAlong(job: Job, order: seq<nat>, j: nat, d: Dedup.State)
    requires j < |order|
    requires forall k :: 0 <= k < |order| ==> order[k] < |job.paths|
    ensures Fetch(job, order[j], Dedup.Feed(job.lib, d, BodiesAlong(job, order, j))).dedup
      == Dedup.Feed(job.lib, d, BodiesAlong(job, order, j + 1))
  {
    if job.Inspects(order[j]) {
      Dedup.FeedSnoc(job.lib, d, BodiesAlong(job, order, j), job.ReplyAt(order[j]).content);
    }
  }

  /** The deduplicator after the first `j` probes to finish, each taking its step in turn. */
  function FoldAlong(job: Job, order: seq<nat>, j: nat, d: Dedup.State): Dedup.State
    requires j <= |order|
    requires forall k :: 0 <= k < |order| ==> order[k] < |job.paths|
  {
    if j == 0 then d else Fetch(job, order[j - 1], FoldAlong(job, order, j - 1, d)).dedup
  }

  /** Threading the deduplicator through the probes in completion order is `Feed` over the bodies they show. */
  lemma {:induction false} FoldAlongIsFeed(job: Job, order: seq<nat>, j: nat, d: Dedup.State)
    requires j <= |order|
    requires forall k :: 0 <= k < |order| ==> order[k] < |job.paths|
    ensures FoldAlong(job, order, j, d) == Dedup.Feed(job.lib, d, BodiesAlong(job, order, j))
  {
    if j > 0 {
      FoldAlongIsFeed(job, order, j - 1, d);
      FetchFeedsAlong(job, order, j - 1, d);
    }
  }

  /** Digests of the bodies inspected by the first `j` probes to finish. */
  ghost function SeenAlong(job: Job, order: seq<nat>, j: nat): set<Dedup.Digest>
    requires j <= |order|
    requires forall k :: 0 <= k < |order| ==> order[k] < |job.paths|
  {
    set k | 0 <= k < j && job.Inspects(order[k]) :: job.lib.digest(job.ReplyAt(order[k]).content)
  }

  lemma SeenAlongStep(job: Job, order: seq<nat>, j: nat)
    requires j < |order|
    requires forall k :: 0 <= k < |order| ==> order[k] < |job.paths|
    ensures job.Inspects(order[j]) ==>
      SeenAlong(job, order, j + 1) == SeenAlong(job, order, j) + {job.lib.digest(job.ReplyAt(order[j]).content)}
    ensures !job.Inspects(order[j]) ==> SeenAlong(job, order, j + 1) == SeenAlong(job, order, j)
  {
  }

  /** Once every probe has finished, the digests seen do not depend on the order. */
  lemma SeenAlongAll(job: Job, order: seq<nat>)
    requires CompletionOrder(order, |job.paths|)
    ensures SeenAlong(job, order, |order|) == job.DigestsFrom(0)
  {
    forall x | x in job.DigestsFrom(0)
      ensures x in SeenAlong(job, order, |order|)
    {
      var i :| 0 <= i < |job.paths| && job.Inspects(i) && x == job.lib.digest(job.ReplyAt(i).content);
      assert i in order;
      var k :| 0 <= k < |order| && order[k] == i;
    }
  }

  /** Writing the record of the `j`-th probe to finish keeps the slots of the earlier ones. */
  lemma SlotStep(job: Job, order: seq<nat>, j: nat, slots: seq<Option<Record>>, r: Record)
    requires j < |order|
    requires |slots| == |job.paths|
    requires forall k :: 0 <= k < |order| ==> order[k] < |slots|
    requires forall k :: 0 <= k < j ==> slots[order[k]] == Some(job.Expected(order[k]))
    requires r == job.Expected(order[j])
    ensures forall k :: 0 <= k < j + 1 ==> slots[order[j] := Some(r)][order[k]] == Some(job.Expected(order[k]))
  {
  }

  /** Once every probe has written its slot, every slot holds the record of its path. */
  lemma SlotsFilled(job: Job, order: seq<nat>, slots: seq<Option<Record>>)
    requires CompletionOrder(order, |job.paths|)
    requires |slots| == |job.paths|
    requires forall k :: 0 <= k < |order| ==> slots[order[k]] == Some(job.Expected(order[k]))
    ensures forall i :: 0 <= i < |slots| ==> slots[i] == Some(job.Expected(i))
  {
    forall i | 0 <= i < |slots|
      ensures slots[i] == Some(job.Expected(i))
    {
      assert i in order;
      var k :| 0 <= k < |order| && order[k] == i;
    }
  }

  /** Once every probe has written its slot, the slots read in path order are the reference results. */
  function Collect(job: Job, order: seq<nat>, slots: seq<Option<Record>>): (rs: seq<Record>)
    requires CompletionOrder(order, |job.paths|)
    requires |slots| == |job.paths|
    requires forall k :: 0 <= k < |order| ==> slots[order[k]] == Some(job.Expected(order[k]))
    ensures rs == job.ExpectedResults()
  {
    SlotsFilled(job, order, slots);
    seq(|slots|, i requires 0 <= i < |slots| => slots[i].value)
  }

  /**
   * The `j`-th probe to finish: it writes its record into the slot of its
   * path and takes one deduplicator step.
   */
  method Complete(job: Job, order: seq<nat>, j: nat, d: Dedup.State, slots: seq<Option<Record>>, cur: Dedup.State)
    returns (filled: seq<Option<Record>>, next: Dedup.State)
    requires j < |order|
    requires forall k :: 0 <= k < |order| ==> order[k] < |job.paths|
    requires |slots| == |job.paths|
    requires forall k :: 0 <= k < j ==> slots[order[k]] == Some(job.Expected(order[k]))
    requires cur == FoldAlong(job, order, j, d)
    ensures |filled| == |job.paths|
    ensures forall k :: 0 <= k < j + 1 ==> filled[order[k]] == Some(job.Expected(order[k]))
    ensures next == FoldAlong(job, order, j + 1, d)
  {
    var f := Fetch(job, order[j], cur);
    SlotStep(job, order, j, slots, f.record);
    filled := slots[order[j] := Some(f.record)];
    next := f.dedup;
  }

  /**
   * `asyncio.gather` with the probes finishing in `order`: each probe threads
   * the deduplicator in completion order and writes its record into the slot
   * of its path.
   */
  method Gather(job: Job, order: seq<nat>, d: Dedup.State) returns (results: seq<Record>, final: Dedup.State)
    requires CompletionOrder(order, |job.paths|)
    ensures results == job.ExpectedResults()
    ensures job.verb == Head ==> final == d
    ensures final.seenHash == Scan(job, d).dedup.seenHash
    ensures final == FoldAlong(job, order, |order|, d)
    ensures Dedup.Valid(job.lib, d) ==> Dedup.Valid(job.lib, final)
  {
    var n := |job.paths|;
    var slots: seq<Option<Record>> := seq(n, _ => None);
    final := d;
    var j := 0;
    while j < |order|
      invariant 0 <= j <= |order|
      invariant |slots| == n
      invariant forall k :: 0 <= k < j ==> slots[order[k]] == Some(job.Expected(order[k]))
      invariant final == FoldAlong(job, order, j, d)
    {
      slots, final := Complete(job, order, j, d, slots, final);
      j := j + 1;
    }
    results := Collect(job, order, slots);
    if job.verb == Head {
      GatheredHead(job, order, d);
    }
    GatheredSeenHash(job, order, d);
    if Dedup.Valid(job.lib, d) {
      GatheredValid(job, order, d);
    }
  }

  /** Which report is written, where, and with what content. */
  datatype Output = JsonReport(path: string, records: seq<Record>) | SarifReport(path: string, log: SarifLog)

  /** `--format` exactly "json" writes JSON to `output`; anything else writes SARIF to `output` with ".json" replaced by ".sarif". */
  function ChooseOutput(format: string, output: string, results: seq<Record>): (o: Output)
    ensures o.JsonReport? <==> format == "json"
    ensures o.JsonReport? ==> o.path == output && o.records == results
    ensures o.SarifReport? ==> o.path == ReplaceAll(output, JsonExt, SarifExt)
    ensures o.SarifReport? ==> o.log == ToSarif(results)
    ensures o.SarifReport? ==> !Occurs(o.path, ".json") && RecordsOf(o.log) == Some(results)
    ensures o.SarifReport? && !Occurs(output, ".json") ==> o.path == output
  {
    if format == "json" then JsonReport(output, results)
    else
      ReplaceJsonPath(output);
      SarifRoundTrip(results);
      SarifReport(ReplaceAll(output, JsonExt, SarifExt), ToSarif(results))
  }

  /** The command-line values the scan uses. */
  datatype Config = Config(url: string, methods: string, format: string, output: string)

  /** What a scan leaves behind: the ordered records, the report written, the deduplicator. */
  datatype Report = Report(results: seq<Record>, output: Output, dedup: Dedup.State)

  /** The threshold `scan` gives the deduplicator. */
  const SimThreshold: real := 0.9

  /** The scan a configuration with an accepted method runs over the word-list lines. */
  function JobFor(cfg: Config, verb: Method, lines: seq<string>, lib: Dedup.Library, network: Probe -> Reply): Job {
    Job(lib, network, verb, cfg.url, PathList(lines))
  }

  /**
   * `scan` followed by `_amain`: a rejected method ends before any request;
   * otherwise every path of the word list is probed and the report chosen.
   */
  function Run(cfg: Config, lines: seq<string>, lib: Dedup.Library, network: Probe -> Reply): (r: Option<Report>)
    ensures r.None? <==> ParseMethod(cfg.methods).None?
    ensures r.Some? ==>
      var job := JobFor(cfg, ParseMethod(cfg.methods).value, lines, lib, network);
      && r.value.results == job.ExpectedResults()
      && r.value.output == ChooseOutput(cfg.format, cfg.output, r.value.results)
      && r.value.dedup.threshold == SimThreshold
      && Dedup.Valid(lib, r.value.dedup)
      && (job.verb == Head ==> r.value.dedup == Dedup.New(SimThreshold))
  {
    match ParseMethod(cfg.methods)
    case None => None
    case Some(verb) =>
      var job := JobFor(cfg, verb, lines, lib, network);
      var d := Dedup.New(SimThreshold);
      Dedup.NewIsValid(lib, SimThreshold);
      ScanKeepsValid(job, d);
      var s := Scan(job, d);
      Some(Report(s.results, ChooseOutput(cfg.format, cfg.output, s.results), s.dedup))
  }

  /**
   * Result `i` is the probe of path `i`: its URL is built from that path, and
   * its status is the reply's code, or the sentinel when the request failed.
   */
  lemma RunResultIsProbeOfPath(cfg: Config, lines: seq<string>, lib: Dedup.Library, network: Probe -> Reply, i: nat)
    requires ParseMethod(cfg.methods).Some?
    ensures Run(cfg, lines, lib, network).Some?
    ensures var results := Run(cfg, lines, lib, network).value.results;
      var paths := PathList(lines);
      |results| == |paths| &&
      (i < |paths| ==>
        var url := FullUrl(cfg.url, paths[i]);
        var reply := network(Probe(i, ParseMethod(cfg.methods).value, url));
        && results[i].url == url
        && (reply.TransportError? ==> results[i].status == Failed)
        && (reply.Answered? ==> results[i].status == Code(reply.statusCode)))
  {
  }
}

=== FILE: decimal.dfy ===
/**
 * Python's `str(n)` for an integer, and the decimal reading that undoes it.
 * The SARIF message of a result embeds the status code this way.
 */
module Decimal {
  import opened Wrappers

  predicate IsDigit(c: char) {
    '0' <= c <= '9'
  }

  function DigitChar(d: nat): (c: char)
    requires d < 10
    ensures IsDigit(c)
  {
    ('0' as int + d) as char
  }

  function DigitValue(c: char): (d: nat)
    requires IsDigit(c)
    ensures d < 10 && DigitChar(d) == c
  {
    c as int - '0' as int
  }

  predicate AllDigits(s: string) {
    forall k :: 0 <= k < |s| ==> IsDigit(s[k])
  }

  /** The decimal digits of `n`, most significant first, without leading zeros. */
  function NatToString(n: nat): (s: string)
    ensures |s| > 0 && AllDigits(s)
    ensures |s| > 1 ==> s[0] != '0'
    decreases n
  {
    if n < 10 then [DigitChar(n)] else NatToString(n / 10) + [DigitChar(n % 10)]
  }

  /** The value of a string of decimal digits. */
  function DigitsToNat(s: string): nat
    requires AllDigits(s)
    decreases |s|
  {
    if s == [] then 0 else DigitsToNat(s[..|s| - 1]) * 10 + DigitValue(s[|s| - 1])
  }

  lemma {:induction false} NatRoundTrip(n: nat)
    ensures DigitsToNat(NatToString(n)) == n
    decreases n
  {
    if n >= 10 {
      var s := NatToString(n);
      assert s[..|s| - 1] == NatToString(n / 10);
      NatRoundTrip(n / 10);
    }
  }

  /** Python's `str(n)`: a '-' before the digits of a negative number. */
  function IntToString(n: int): (s: string)
    ensures |s| > 0 && (IsDigit(s[0]) || s[0] == '-')
    ensures s[0] == '-' <==> n < 0
    ensures n >= 0 ==> AllDigits(s) && (|s| > 1 ==> s[0] != '0')
    ensures n < 0 ==> |s| > 1 && AllDigits(s[1..]) && s[1] != '0'
  {
    if n < 0 then "-" + NatToString(-n) else NatToString(n)
  }

  /** Reads an optional '-' followed by one or more decimal digits. */
  function ParseInt(s: string): Option<int> {
    if |s| > 1 && s[0] == '-' && AllDigits(s[1..]) then Some(-(DigitsToNat(s[1..]) as int))
    else if |s| > 0 && AllDigits(s) then Some(DigitsToNat(s))
    else None
  }

  /** `ParseInt` recovers every integer that `IntToString` renders. */
  lemma IntRoundTrip(n: int)
    ensures ParseInt(IntToString(n)) == Some(n)
  {
    if n < 0 {
      NegativeRoundTrip(-n);
    } else {
      NatParsesBack(n);
    }
  }

  /** The digits of a natural number read back as that number. */
  lemma NatParsesBack(m: nat)
    ensures ParseInt(NatToString(m)) == Some(m)
  {
    var s := NatToString(m);
    assert s[0] != '-' by {
      assert IsDigit(s[0]);
    }
    NatRoundTrip(m);
  }

  /** A '-' before the digits of a positive number reads back as its negation. */
  lemma NegativeRoundTrip(m: nat)
    requires m > 0
    ensures ParseInt("-" + NatToString(m)) == Some(-(m as int))
  {
    var digits := NatToString(m);
    var s := "-" + digits;
    assert s[1..] == digits;
    NatRoundTrip(m);
  }
}

=== FILE: dedup.dfy ===
/**
 * Model of the response deduplicator (src/dirscan/dedup.py).
 *
 * The deduplicator remembers the digest of every body it has been shown and
 * the decoded text of every body it kept as a new sample. A body is a
 * duplicate when its digest was seen before, or when its text is more than
 * `threshold` similar to a kept sample. The digest, the byte-to-text decoding
 * and the similarity ratio are library code; the model takes them as
 * parameters and assumes nothing about them.
 */
module Dedup {

  newtype byte = b: int | 0 <= b < 256

  type Bytes = seq<byte>

  /** The hexadecimal xxh64 digest of a body. */
  type Digest = string

  /** The library routines the deduplicator calls. */
  datatype Library = Library(
    digest: Bytes -> Digest,              // content_hash: xxh64(body).hexdigest()
    decode: Bytes -> string,              // body.decode(errors="ignore")
    similarity: (string, string) -> real  // SequenceMatcher(None, a, b).ratio()
  )

  /** The deduplicator's state: seen digests and kept samples, oldest first. */
  datatype State = State(seenHash: set<Digest>, seenSample: seq<string>, threshold: real)

  /** The answer of one `is_duplicate` call and the state it leaves behind. */
  datatype Verdict = Verdict(duplicate: bool, next: State)

  const DefaultThreshold: real := 0.9

  /** A deduplicator that has seen nothing. */
  function New(threshold: real): (d: State)
    ensures d.seenHash == {} && d.seenSample == [] && d.threshold == threshold
  {
    State({}, [], threshold)
  }

  /** `text` is more than `threshold` similar to some sample in `samples`. */
  predicate NearDuplicate(lib: Library, text: string, samples: seq<string>, threshold: real) {
    exists k :: 0 <= k < |samples| && lib.similarity(text, samples[k]) > threshold
  }

  /** The sample loop of `is_duplicate`: compares `text` with each sample in insertion order. */
  function AnySimilar(lib: Library, text: string, samples: seq<string>, threshold: real): (r: bool)
    ensures r <==> NearDuplicate(lib, text, samples, threshold)
    decreases |samples|
  {
    if samples == [] then false
    else if lib.similarity(text, samples[0]) > threshold then true
    else
      var r := AnySimilar(lib, text, samples[1..], threshold);
      assert NearDuplicate(lib, text, samples[1..], threshold) ==> NearDuplicate(lib, text, samples, threshold) by {
        if NearDuplicate(lib, text, samples[1..], threshold) {
          var k :| 0 <= k < |samples[1..]| && lib.similarity(text, samples[1..][k]) > threshold;
          assert samples[k + 1] == samples[1..][k];
        }
      }
      r
  }

  /**
   * One `is_duplicate(body)` call. An already seen digest answers true and
   * changes nothing. Otherwise the digest is recorded, and the decoded text is
   * either found near a kept sample (true) or kept as a new sample (false).
   */
  function IsDuplicate(lib: Library, d: State, body: Bytes): (v: Verdict)
    ensures v.next.threshold == d.threshold
    ensures lib.digest(body) in d.seenHash ==> v.duplicate && v.next == d
    ensures v.next.seenHash == d.seenHash + {lib.digest(body)}
    ensures !v.duplicate <==>
      lib.digest(body) !in d.seenHash && !NearDuplicate(lib, lib.decode(body), d.seenSample, d.threshold)
    ensures !v.duplicate <==> v.next.seenSample == d.seenSample + [lib.decode(body)]
    ensures v.duplicate ==> v.next.seenSample == d.seenSample
  {
    var h := lib.digest(body);
    if h in d.seenHash then Verdict(true, d)
    else
      var seen := d.seenHash + {h};
      var text := lib.decode(body);
      if AnySimilar(lib, text, d.seenSample, d.threshold) then Verdict(true, d.(seenHash := seen))
      else Verdict(false, State(seen, d.seenSample + [text], d.threshold))
  }

  /** On a deduplicator that has seen nothing, the first body is never a duplicate. */
  lemma FirstCallIsNotDuplicate(lib: Library, threshold: real, body: Bytes)
    ensures var v := IsDuplicate(lib, New(threshold), body);
      !v.duplicate && v.next.seenSample == [lib.decode(body)]
  {
  }

  /** The same body twice in a row: the second call answers true. */
  lemma RepeatIsDuplicate(lib: Library, d: State, body: Bytes)
    ensures IsDuplicate(lib, IsDuplicate(lib, d, body).next, body).duplicate
  {
  }

  /**
   * The deduplicator's invariant: no more kept samples than seen digests, and
   * every kept sample is at most `threshold` similar to each sample kept before it.
   */
  predicate Valid(lib: Library, d: State) {
    && |d.seenSample| <= |d.seenHash|
    && forall i, j :: 0 <= i < j < |d.seenSample| ==> lib.similarity(d.seenSample[j], d.seenSample[i]) <= d.threshold
  }

  lemma NewIsValid(lib: Library, threshold: real)
    ensures Valid(lib, New(threshold))
  {
  }

  /** Every `is_duplicate` call preserves the invariant. */
  lemma IsDuplicateKeepsValid(lib: Library, d: State, body: Bytes)
    requires Valid(lib, d)
    ensures Valid(lib, IsDuplicate(lib, d, body).next)
  {
    var v := IsDuplicate(lib, d, body);
    if !v.duplicate {
      var h := lib.digest(body);
      assert |d.seenHash + {h}| == |d.seenHash| + 1;
      var s := v.next.seenSample;
      forall i, j | 0 <= i < j < |s|
        ensures lib.similarity(s[j], s[i]) <= v.next.threshold
      {
        if j == |s| - 1 {
          assert s[i] == d.seenSample[i];
        } else {
          assert s[i] == d.seenSample[i] && s[j] == d.seenSample[j];
        }
      }
    }
  }

  /** The deduplicator after `is_duplicate` was called on each body in turn. */
  function Feed(lib: Library, d: State, bodies: seq<Bytes>): (e: State)
    ensures e.threshold == d.threshold
    ensures d.seenHash <= e.seenHash
    ensures d.seenSample <= e.seenSample
    decreases |bodies|
  {
    if bodies == [] then d else Feed(lib, IsDuplicate(lib, d, bodies[0]).next, bodies[1..])
  }

  /** Showing one more body is one more `is_duplicate` call on the state reached so far. */
  lemma {:induction false} FeedSnoc(lib: Library, d: State, bodies: seq<Bytes>, b: Bytes)
    ensures Feed(lib, d, bodies + [b]) == IsDuplicate(lib, Feed(lib, d, bodies), b).next
    decreases |bodies|
  {
    if bodies == [] {
      assert bodies + [b] == [b];
      assert [b][1..] == [];
    } else {
      var bs := bodies + [b];
      assert bs[0] == bodies[0] && bs[1..] == bodies[1..] + [b];
      FeedSnoc(lib, IsDuplicate(lib, d, bodies[0]).next, bodies[1..], b);
    }
  }

  /** The seen digests are exactly the digests of the bodies shown, whatever their order. */
  lemma {:induction false} FeedSeenHash(lib: Library, d: State, bodies: seq<Bytes>)
    ensures Feed(lib, d, bodies).seenHash == d.seenHash + (set b | b in bodies :: lib.digest(b))
    decreases |bodies|
  {
    if bodies != [] {
      var d' := IsDuplicate(lib, d, bodies[0]).next;
      FeedSeenHash(lib, d', bodies[1..]);
      assert (set b | b in bodies :: lib.digest(b))
          == {lib.digest(bodies[0])} + (set b | b in bodies[1..] :: lib.digest(b)) by {
        assert forall b :: b in bodies <==> b == bodies[0] || b in bodies[1..];
      }
    }
  }

  /** Every sample added while feeding is the decoded text of one of the bodies. */
  lemma {:induction false} FeedSamplesFromBodies(lib: Library, d: State, bodies: seq<Bytes>)
    ensures var e := Feed(lib, d, bodies);
      forall k :: |d.seenSample| <= k < |e.seenSample| ==>
        exists b :: b in bodies && lib.decode(b) == e.seenSample[k]
    decreases |bodies|
  {
    if bodies != [] {
      var d' := IsDuplicate(lib, d, bodies[0]).next;
      FeedSamplesFromBodies(lib, d', bodies[1..]);
      var e := Feed(lib, d, bodies);
      assert e == Feed(lib, d', bodies[1..]);
      forall k | |d.seenSample| <= k < |e.seenSample|
        ensures exists b :: b in bodies && lib.decode(b) == e.seenSample[k]
      {
        if k < |d'.seenSample| {
          assert lib.decode(bodies[0]) == e.seenSample[k];
        } else {
          var b :| b in bodies[1..] && lib.decode(b) == e.seenSample[k];
          assert b in bodies;
        }
      }
    }
  }

  /** Feeding any bodies preserves the invariant. */
  lemma {:induction false} FeedKeepsValid(lib: Library, d: State, bodies: seq<Bytes>)
    requires Valid(lib, d)
    ensures Valid(lib, Feed(lib, d, bodies))
    decreases |bodies|
  {
    if bodies != [] {
      IsDuplicateKeepsValid(lib, d, bodies[0]);
      FeedKeepsValid(lib, IsDuplicate(lib, d, bodies[0]).next, bodies[1..]);
    }
  }
}

=== FILE: format.dfy ===
/**
 * Model of the SARIF report (src/dirscan/format.py, `to_sarif`): the result
 * records become one SARIF 2.1.0 log with one run and one result per record.
 *
 * The datatypes follow the objects the code builds. As written, each result's
 * `locations` holds physical locations directly, where section 3.28 of SARIF
 * 2.1.0 expects location objects that wrap a physical location.
 */
module Format {
  import opened Wrappers
  import Decimal

  /** The status of one probe: the HTTP status code, or the error sentinel. */
  datatype Status = Code(code: int) | Failed

  /** One scan result, `{"url": ..., "status": ...}`. */
  datatype Record = Record(url: string, status: Status)

  /** The status text of a failed request ("异常", "exception"). */
  const Sentinel: string := "\U{5F02}\U{5E38}"

  /** `str(status)`: the decimal code, or the sentinel itself. */
  function StatusText(s: Status): (t: string)
    ensures s.Failed? <==> t == Sentinel
    ensures s.Code? ==> t == Decimal.IntToString(s.code)
  {
    match s
    case Code(n) => Decimal.IntToString(n)
    case Failed => Sentinel
  }

  function ParseStatus(t: string): Option<Status> {
    if t == Sentinel then Some(Failed)
    else match Decimal.ParseInt(t)
      case Some(n) => Some(Code(n))
      case None => None
  }

  lemma StatusRoundTrip(s: Status)
    ensures ParseStatus(StatusText(s)) == Some(s)
  {
    if s.Code? {
      Decimal.IntRoundTrip(s.code);
    }
  }

  datatype ToolComponent = ToolComponent(name: string, version: string)
  datatype Tool = Tool(driver: ToolComponent)
  datatype ArtifactLocation = ArtifactLocation(uri: string)
  datatype PhysicalLocation = PhysicalLocation(artifactLocation: ArtifactLocation)
  datatype Message = Message(text: string)
  datatype SarifResult = SarifResult(ruleId: string, level: string, message: Message, locations: seq<PhysicalLocation>)
  datatype Run = Run(tool: Tool, results: seq<SarifResult>)
  datatype SarifLog = SarifLog(version: string, runs: seq<Run>)

  const RuleId: string := "dirscan/leak"
  const Level: string := "warning"
  const SarifVersion: string := "2.1.0"
  const Driver: ToolComponent := ToolComponent("dirscan", "0.1.0")
  const Arrow: string := " -> "

  /** The SARIF result reporting one record; the record can be read back from it. */
  function ResultFor(r: Record): (res: SarifResult)
    ensures res.ruleId == RuleId && res.level == Level
    ensures |res.locations| == 1 && res.locations[0].artifactLocation.uri == r.url
    ensures res.message.text == r.url + Arrow + StatusText(r.status)
    ensures RecordOf(res) == Some(r)
  {
    MessageRoundTrip(r.url, r.status);
    SarifResult(RuleId, Level, Message(r.url + Arrow + StatusText(r.status)),
                [PhysicalLocation(ArtifactLocation(r.url))])
  }

  function ResultsFor(records: seq<Record>): (rs: seq<SarifResult>)
    ensures |rs| == |records|
    ensures forall k :: 0 <= k < |records| ==> rs[k] == ResultFor(records[k])
    decreases |records|
  {
    if records == [] then [] else [ResultFor(records[0])] + ResultsFor(records[1..])
  }

  /** `to_sarif(results, ...)` without the file write. */
  function ToSarif(records: seq<Record>): (log: SarifLog)
    ensures log.version == "2.1.0" && |log.runs| == 1
    ensures log.runs[0].tool.driver.name == "dirscan" && log.runs[0].tool.driver.version == "0.1.0"
    ensures |log.runs[0].results| == |records|
    ensures forall k :: 0 <= k < |records| ==>
      var res := log.runs[0].results[k];
      && res.ruleId == "dirscan/leak"
      && res.level == "warning"
      && res.message.text == records[k].url + " -> " + StatusText(records[k].status)
      && |res.locations| == 1
      && res.locations[0].artifactLocation.uri == records[k].url
  {
    SarifLog(SarifVersion, [Run(Tool(Driver), ResultsFor(records))])
  }

  /** Reads a record back from a result: url from its location, status from its message. */
  function RecordOf(res: SarifResult): Option<Record> {
    if |res.locations| != 1 then None
    else
      var url := res.locations[0].artifactLocation.uri;
      var prefix := url + Arrow;
      var text := res.message.text;
      if |text| < |prefix| || text[..|prefix|] != prefix then None
      else match ParseStatus(text[|prefix|..])
        case Some(s) => Some(Record(url, s))
        case None => None
  }

  function RecordsOfResults(rs: seq<SarifResult>): Option<seq<Record>>
    decreases |rs|
  {
    if rs == [] then Some([])
    else match (RecordOf(rs[0]), RecordsOfResults(rs[1..]))
      case (Some(r), Some(rest)) => Some([r] + rest)
      case _ => None
  }

  /** Reads the records back from a log with exactly one run. */
  function RecordsOf(log: SarifLog): Option<seq<Record>> {
    if |log.runs| != 1 then None else RecordsOfResults(log.runs[0].results)
  }

  /** The message `url -> status` starts with `url -> `, and the status reads back from the rest. */
  lemma MessageRoundTrip(url: string, s: Status)
    ensures var text := url + Arrow + StatusText(s);
      var prefix := url + Arrow;
      && |prefix| <= |text| && text[..|prefix|] == prefix
      && ParseStatus(text[|prefix|..]) == Some(s)
  {
    var text := url + Arrow + StatusText(s);
    var prefix := url + Arrow;
    assert text[..|prefix|] == prefix;
    assert text[|prefix|..] == StatusText(s);
    StatusRoundTrip(s);
  }

  /** The report loses nothing: every record, in order, can be read back from it. */
  // Not an induction: the attribute stops Dafny from trying one of its own on `records`; `ResultsRoundTrip` carries it.
  lemma {:induction false} SarifRoundTrip(records: seq<Record>)
    ensures RecordsOf(ToSarif(records)) == Some(records)
  {
    ResultsRoundTrip(records);
  }

  lemma {:induction false} ResultsRoundTrip(records: seq<Record>)
    ensures RecordsOfResults(ResultsFor(records)) == Some(records)
    decreases |records|
  {
    if records != [] {
      var rs := ResultsFor(records);
      assert rs[1..] == ResultsFor(records[1..]);
      ResultsRoundTrip(records[1..]);
      RecordsOfCons(rs, records[0], records[1..]);
      assert [records[0]] + records[1..] == records;
    }
  }

  lemma RecordsOfCons(rs: seq<SarifResult>, r: Record, rest: seq<Record>)
    requires rs != [] && RecordOf(rs[0]) == Some(r) && RecordsOfResults(rs[1..]) == Some(rest)
    ensures RecordsOfResults(rs) == Some([r] + rest)
  {
  }
}

=== FILE: strings.dfy ===
/**
 * The Python string operations the scanner relies on: `str.strip()`,
 * `str.rstrip('/')`, `str.lower()` and `str.replace(old, new)`.
 */
module Strings {

  /** Python's `str.isspace()` code points, which `str.strip()` removes. */
  predicate IsSpace(c: char) {
    || '\t' <= c <= '\r'
    || '\U{1C}' <= c <= ' '
    || c == '\U{85}' || c == '\U{A0}' || c == '\U{1680}'
    || '\U{2000}' <= c <= '\U{200A}'
    || c == '\U{2028}' || c == '\U{2029}' || c == '\U{202F}'
    || c == '\U{205F}' || c == '\U{3000}'
  }

  predicate IsSlash(c: char) {
    c == '/'
  }

  /** The end of `s[..j]` once its trailing characters satisfying `drop` are removed. */
  function KeptEnd(s: string, drop: char -> bool, j: nat): (n: nat)
    requires j <= |s|
    ensures n <= j
    ensures n == 0 || !drop(s[n - 1])
    ensures forall k :: n <= k < j ==> drop(s[k])
    decreases j
  {
    if j > 0 && drop(s[j - 1]) then KeptEnd(s, drop, j - 1) else j
  }

  /** The start of `s[i..]` once its leading characters satisfying `drop` are removed. */
  function KeptStart(s: string, drop: char -> bool, i: nat): (n: nat)
    requires i <= |s|
    ensures i <= n <= |s|
    ensures n == |s| || !drop(s[n])
    ensures forall k :: i <= k < n ==> drop(s[k])
    decreases |s| - i
  {
    if i < |s| && drop(s[i]) then KeptStart(s, drop, i + 1) else i
  }

  /** `s` with every trailing character satisfying `drop` removed. */
  function TrimEnd(s: string, drop: char -> bool): (r: string)
    ensures r <= s
    ensures r == [] || !drop(r[|r| - 1])
    ensures forall k :: |r| <= k < |s| ==> drop(s[k])
  {
    s[..KeptEnd(s, drop, |s|)]
  }

  /** `s` with every leading character satisfying `drop` removed. */
  function TrimStart(s: string, drop: char -> bool): (r: string)
    ensures |r| <= |s| && r == s[|s| - |r|..]
    ensures r == [] || !drop(r[0])
    ensures forall k :: 0 <= k < |s| - |r| ==> drop(s[k])
  {
    s[KeptStart(s, drop, 0)..]
  }

  /** Python's `s.strip()`: the slice of `s` between its leading and trailing whitespace. */
  function Strip(s: string): (r: string)
    ensures r == [] || (!IsSpace(r[0]) && !IsSpace(r[|r| - 1]))
  {
    TrimStart(TrimEnd(s, IsSpace), IsSpace)
  }

  /**
   * `TrimEnd` is the only prefix of `s` that ends in a kept character (or is
   * empty) and is followed by dropped characters only: the longest such prefix.
   */
  lemma TrimEndUnique(s: string, drop: char -> bool, t: string)
    requires t <= s
    requires t == [] || !drop(t[|t| - 1])
    requires forall k :: |t| <= k < |s| ==> drop(s[k])
    ensures t == TrimEnd(s, drop)
  {
  }

  /** Trimming twice removes nothing more than trimming once. */
  lemma TrimEndIdempotent(s: string, drop: char -> bool)
    ensures TrimEnd(TrimEnd(s, drop), drop) == TrimEnd(s, drop)
  {
  }

  /** `r` is the slice of `s` starting at `i`, and only `drop` characters lie outside it. */
  predicate InnerSlice(s: string, r: string, i: nat, drop: char -> bool) {
    && i + |r| <= |s|
    && r == s[i..i + |r|]
    && (forall k :: 0 <= k < i ==> drop(s[k]))
    && (forall k :: i + |r| <= k < |s| ==> drop(s[k]))
  }

  lemma TrimBothIsInnerSlice(s: string, drop: char -> bool)
    ensures InnerSlice(s, TrimStart(TrimEnd(s, drop), drop), |TrimEnd(s, drop)| - |TrimStart(TrimEnd(s, drop), drop)|, drop)
  {
    var e := TrimEnd(s, drop);
    var r := TrimStart(e, drop);
    var i := |e| - |r|;
    assert e == s[..|e|];
    assert r == e[i..];
    assert e[i..] == s[i..i + |r|];
    assert forall k :: 0 <= k < i ==> drop(s[k]) by {
      assert forall k :: 0 <= k < i ==> e[k] == s[k];
    }
  }

  /** `Strip(s)` is a slice of `s` with only whitespace around it. */
  lemma StripIsInnerSlice(s: string)
    ensures exists i: nat :: InnerSlice(s, Strip(s), i, IsSpace)
  {
    TrimBothIsInnerSlice(s, IsSpace);
    var e := TrimEnd(s, IsSpace);
    assert InnerSlice(s, Strip(s), |e| - |Strip(s)|, IsSpace);
  }

  /** Stripping an already stripped string changes nothing. */
  lemma StripIdempotent(s: string)
    ensures Strip(Strip(s)) == Strip(s)
  {
    var r := Strip(s);
    assert TrimEnd(r, IsSpace) == r;
  }

  /** Python's `str.lower()` on ASCII letters; every other character is kept. */
  function LowerChar(c: char): char {
    if 'A' <= c <= 'Z' then (c as int + 32) as char else c
  }

  function Lower(s: string): (r: string)
    ensures |r| == |s|
    ensures forall k :: 0 <= k < |s| ==> r[k] == LowerChar(s[k])
  {
    seq(|s|, k requires 0 <= k < |s| => LowerChar(s[k]))
  }

  function UpperChar(c: char): char {
    if 'a' <= c <= 'z' then (c as int - 32) as char else c
  }

  /** `a` spells the word `w`, each letter in either case. */
  predicate SpellsIgnoringCase(a: string, w: string) {
    |a| == |w| && forall k :: 0 <= k < |w| ==> a[k] == w[k] || a[k] == UpperChar(w[k])
  }

  /** For a word of lower-case ASCII letters, lowering `a` yields it exactly when `a` spells it in any case. */
  lemma LowerIsWordIff(a: string, w: string)
    requires forall k :: 0 <= k < |w| ==> 'a' <= w[k] <= 'z'
    ensures Lower(a) == w <==> SpellsIgnoringCase(a, w)
  {
    if SpellsIgnoringCase(a, w) {
      assert forall k :: 0 <= k < |w| ==> Lower(a)[k] == w[k];
    }
    if Lower(a) == w {
      assert forall k :: 0 <= k < |w| ==> LowerChar(a[k]) == w[k];
    }
  }

  /** `pat` occurs in `s` starting at index `i`. */
  predicate OccursAt(s: string, pat: string, i: nat) {
    i + |pat| <= |s| && s[i..i + |pat|] == pat
  }

  predicate Occurs(s: string, pat: string) {
    exists i: nat | i <= |s| :: OccursAt(s, pat, i)
  }

  /** Python's `s.replace(pat, rep)`: non-overlapping occurrences, scanned left to right. */
  function ReplaceAll(s: string, pat: string, rep: string): (r: string)
    requires pat != []
    ensures pat == rep ==> r == s
    decreases |s|
  {
    if |s| < |pat| then s
    else if s[..|pat|] == pat then rep + ReplaceAll(s[|pat|..], pat, rep)
    else [s[0]] + ReplaceAll(s[1..], pat, rep)
  }

  /** A string with no occurrence of the pattern is returned unchanged. */
  lemma {:induction false} ReplaceAllWithoutOccurrence(s: string, pat: string, rep: string)
    requires pat != []
    requires !Occurs(s, pat)
    ensures ReplaceAll(s, pat, rep) == s
    decreases |s|
  {
    if |s| < |pat| {
    } else if s[..|pat|] == pat {
      assert OccursAt(s, pat, 0);
    } else {
      forall i: nat | OccursAt(s[1..], pat, i)
        ensures false
      {
        assert s[1..][i..i + |pat|] == s[i + 1..i + 1 + |pat|];
        assert OccursAt(s, pat, i + 1);
      }
      ReplaceAllWithoutOccurrence(s[1..], pat, rep);
    }
  }

  /**
   * Replacement works left to right: everything before the first occurrence
   * is copied, that occurrence becomes `rep`, and the rest of the string
   * after it is replaced in turn (so occurrences never overlap).
   */
  // Not an induction: the attribute stops Dafny from trying one of its own on `ReplaceAll`, which only costs time.
  lemma {:induction false} ReplaceAllAtFirstOccurrence(s: string, pat: string, rep: string, i: nat)
    requires pat != []
    requires OccursAt(s, pat, i)
    requires forall j: nat :: j < i ==> !OccursAt(s, pat, j)
    ensures ReplaceAll(s, pat, rep) == s[..i] + rep + ReplaceAll(s[i + |pat|..], pat, rep)
  {
    ReplaceAllCopiesPrefix(s, pat, rep, i);
    ReplaceAllAtStart(s[i..], pat, rep);
    assert s[i..][|pat|..] == s[i + |pat|..];
    AppendAssoc(s[..i], rep, ReplaceAll(s[i + |pat|..], pat, rep));
  }

  /** An occurrence at the start becomes `rep`, and replacement continues after it. */
  lemma ReplaceAllAtStart(s: string, pat: string, rep: string)
    requires pat != []
    requires OccursAt(s, pat, 0)
    ensures ReplaceAll(s, pat, rep) == rep + ReplaceAll(s[|pat|..], pat, rep)
  {
    assert s[..|pat|] == s[0..0 + |pat|];
  }

  lemma AppendAssoc(a: string, b: string, c: string)
    ensures a + (b + c) == a + b + c
  {
  }

  /** Before the first occurrence of the pattern, replacement copies the string. */
  lemma {:induction false} ReplaceAllCopiesPrefix(s: string, pat: string, rep: string, i: nat)
    requires pat != [] && i <= |s|
    requires forall j: nat :: j < i ==> !OccursAt(s, pat, j)
    ensures ReplaceAll(s, pat, rep) == s[..i] + ReplaceAll(s[i..], pat, rep)
    decreases i
  {
    if i == 0 {
      assert s[..0] + ReplaceAll(s[0..], pat, rep) == ReplaceAll(s, pat, rep);
    } else {
      var t := s[1..];
      ReplaceAllSkipsChar(s, pat, rep);
      forall j: nat | j < i - 1
        ensures !OccursAt(t, pat, j)
      {
        OccursAtShift(s, pat, j);
      }
      ReplaceAllCopiesPrefix(t, pat, rep, i - 1);
      ConsSlices(s, i);
      ConsConcat(ReplaceAll(s, pat, rep), s[0], ReplaceAll(t, pat, rep), t[..i - 1], s[..i],
                 ReplaceAll(s[i..], pat, rep));
    }
  }

  /** Where the pattern does not start, replacement copies the first character. */
  lemma ReplaceAllSkipsChar(s: string, pat: string, rep: string)
    requires pat != [] && s != []
    requires !OccursAt(s, pat, 0)
    ensures ReplaceAll(s, pat, rep) == [s[0]] + ReplaceAll(s[1..], pat, rep)
  {
  }

  /** Slices of the tail of `s`, as slices of `s`. */
  lemma ConsSlices(s: string, i: nat)
    requires 0 < i <= |s|
    ensures s[..i] == [s[0]] + s[1..][..i - 1]
    ensures s[1..][i - 1..] == s[i..]
  {
  }

  lemma ConsConcat(r: string, c: char, y: string, a: string, p: string, x: string)
    requires r == [c] + y && y == a + x && p == [c] + a
    ensures r == p + x
  {
  }

  /** In `a + ".json" + rest` with no '.' in `a`, the first ".json" is the one after `a`. */
  // Not an induction: the attribute stops Dafny from trying one of its own on `ReplaceAll`, which only costs time.
  lemma {:induction false} ReplaceJsonAfterPlain(a: string, rest: string)
    requires '.' !in a
    ensures ReplaceAll(a + JsonExt + rest, JsonExt, SarifExt) == a + SarifExt + ReplaceAll(rest, JsonExt, SarifExt)
  {
    var s := a + JsonExt + rest;
    forall j: nat | j < |a|
      ensures !OccursAt(s, JsonExt, j)
    {
      assert s[j] == a[j];
      assert s[j..j + |JsonExt|][0] == s[j];
    }
    assert s[|a|..|a| + |JsonExt|] == JsonExt;
    ReplaceAllAtFirstOccurrence(s, JsonExt, SarifExt, |a|);
    assert s[..|a|] == a && s[|a| + |JsonExt|..] == rest;
  }

  /** The default report name "out.json" becomes "out.sarif". */
  lemma ReplaceDefaultOutput()
    ensures ReplaceAll("out.json", JsonExt, SarifExt) == "out.sarif"
  {
    ReplaceJsonAfterPlain("out", []);
    assert "out" + JsonExt + [] == "out.json";
    assert "out" + SarifExt + [] == "out.sarif";
  }

  /** Every ".json" is replaced, not only the first. */
  lemma ReplaceEveryJson(a: string)
    requires '.' !in a
    ensures ReplaceAll(a + JsonExt + JsonExt, JsonExt, SarifExt) == a + SarifExt + SarifExt
  {
    ReplaceJsonAfterPlain(a, JsonExt);
    ReplaceJsonAfterPlain([], []);
    assert [] + JsonExt + [] == JsonExt;
    assert [] + SarifExt + [] == SarifExt;
  }

  /** An occurrence in the tail of `s` is an occurrence in `s` one place further on. */
  lemma OccursAtShift(s: string, pat: string, j: nat)
    requires s != []
    ensures OccursAt(s[1..], pat, j) <==> OccursAt(s, pat, j + 1)
  {
    if j + 1 + |pat| <= |s| {
      assert s[1..][j..j + |pat|] == s[j + 1..j + 1 + |pat|];
    }
  }

  const JsonExt: string := ".json"
  const SarifExt: string := ".sarif"

  /**
   * Up to the first '.', replacing ".json" by ".sarif" copies its input:
   * a replacement always starts with a '.'.
   */
  lemma {:induction false} ReplacePrefixBeforeDot(t: string, k: nat)
    requires k <= |ReplaceAll(t, JsonExt, SarifExt)|
    requires '.' !in ReplaceAll(t, JsonExt, SarifExt)[..k]
    ensures k <= |t| && ReplaceAll(t, JsonExt, SarifExt)[..k] == t[..k]
    decreases |t|
  {
    var r := ReplaceAll(t, JsonExt, SarifExt);
    if |t| < |JsonExt| {
    } else if t[..|JsonExt|] == JsonExt {
      assert r[0] == '.';
    } else if k > 0 {
      var rest := ReplaceAll(t[1..], JsonExt, SarifExt);
      assert r == [t[0]] + rest;
      assert r[..k] == [t[0]] + rest[..k - 1];
      ReplacePrefixBeforeDot(t[1..], k - 1);
      assert t[..k] == [t[0]] + t[1..][..k - 1];
    }
  }

  /** The characters of an occurrence at index `i`. */
  lemma OccursAtChars(r: string, pat: string, i: nat)
    requires OccursAt(r, pat, i)
    ensures forall j :: 0 <= j < |pat| ==> r[i + j] == pat[j]
  {
    forall j | 0 <= j < |pat|
      ensures r[i + j] == pat[j]
    {
      assert r[i + j] == r[i..i + |pat|][j];
    }
  }

  /** A ".json" in ".sarif" followed by `rest` lies wholly inside `rest`. */
  lemma JsonAfterSarif(rest: string, i: nat)
    requires OccursAt(SarifExt + rest, JsonExt, i)
    ensures i >= |SarifExt| && OccursAt(rest, JsonExt, i - |SarifExt|)
  {
    var r := SarifExt + rest;
    OccursAtChars(r, JsonExt, i);
    assert r[i] == '.' && r[i + 1] == 'j';
    assert r[0] == '.' && r[1] == 's' && r[2] == 'a' && r[3] == 'r' && r[4] == 'i' && r[5] == 'f';
    assert i != 0 && i != 1 && i != 2 && i != 3 && i != 4 && i != 5;
    assert r[i..i + |JsonExt|] == rest[i - |SarifExt|..i - |SarifExt| + |JsonExt|];
  }

  /** The characters of a ".json" that starts with `c` and continues into `rest`. */
  lemma JsonAtStartChars(c: char, rest: string)
    requires OccursAt([c] + rest, JsonExt, 0)
    ensures c == '.' && |rest| >= 4
    ensures rest[0] == 'j' && rest[1] == 's' && rest[2] == 'o' && rest[3] == 'n'
  {
    var r := [c] + rest;
    assert r[..|JsonExt|] == ".json";
    assert c == r[..|JsonExt|][0];
    assert rest[0] == r[..|JsonExt|][1] && rest[1] == r[..|JsonExt|][2];
    assert rest[2] == r[..|JsonExt|][3] && rest[3] == r[..|JsonExt|][4];
  }

  /** A replaced string that starts with "json" comes from a string starting with "json". */
  lemma ReplacedJsonWordIsCopied(t: string)
    requires var r := ReplaceAll(t, JsonExt, SarifExt);
      |r| >= 4 && r[0] == 'j' && r[1] == 's' && r[2] == 'o' && r[3] == 'n'
    ensures |t| >= 4 && t[0] == 'j' && t[1] == 's' && t[2] == 'o' && t[3] == 'n'
  {
    assert ReplaceAll(t, JsonExt, SarifExt)[..4] == "json";
    ReplacePrefixBeforeDot(t, 4);
    assert t[..4] == "json";
  }

  /** A ".json" after the copied character `c` lies wholly inside the replaced remainder. */
  lemma JsonAfterCopiedChar(c: char, rest: string, i: nat)
    requires 0 < i
    requires OccursAt([c] + rest, JsonExt, i)
    ensures OccursAt(rest, JsonExt, i - 1)
  {
    var r := [c] + rest;
    assert r[i..i + |JsonExt|] == rest[i - 1..i - 1 + |JsonExt|];
  }

  /** After `replace(".json", ".sarif")` no ".json" is left in the string. */
  lemma {:induction false} ReplaceJsonLeavesNone(s: string)
    ensures !Occurs(ReplaceAll(s, JsonExt, SarifExt), JsonExt)
    decreases |s|
  {
    var r := ReplaceAll(s, JsonExt, SarifExt);
    if |s| < |JsonExt| {
    } else if s[..|JsonExt|] == JsonExt {
      var rest := ReplaceAll(s[|JsonExt|..], JsonExt, SarifExt);
      assert r == SarifExt + rest;
      ReplaceJsonLeavesNone(s[|JsonExt|..]);
      forall i: nat | OccursAt(r, JsonExt, i)
        ensures false
      {
        JsonAfterSarif(rest, i);
      }
    } else {
      assert r == [s[0]] + ReplaceAll(s[1..], JsonExt, SarifExt);
      assert s[0] == '.' && s[1] == 'j' && s[2] == 's' && s[3] == 'o' ==> s[4] != 'n' by {
        assert s[..|JsonExt|] == [s[0], s[1], s[2], s[3], s[4]];
      }
      assert s[1..][0] == s[1] && s[1..][1] == s[2] && s[1..][2] == s[3] && s[1..][3] == s[4];
      ReplaceJsonLeavesNone(s[1..]);
      forall i: nat | OccursAt(r, JsonExt, i)
        ensures false
      {
        if i == 0 {
          JsonAtStartChars(s[0], ReplaceAll(s[1..], JsonExt, SarifExt));
          ReplacedJsonWordIsCopied(s[1..]);
        } else {
          JsonAfterCopiedChar(s[0], ReplaceAll(s[1..], JsonExt, SarifExt), i);
        }
      }
    }
  }

  /** The SARIF report path: free of ".json", and unchanged when there was none. */
  lemma ReplaceJsonPath(path: string)
    ensures !Occurs(ReplaceAll(path, JsonExt, SarifExt), JsonExt)
    ensures !Occurs(path, JsonExt) ==> ReplaceAll(path, JsonExt, SarifExt) == path
  {
    ReplaceJsonLeavesNone(path);
    if !Occurs(path, JsonExt) {
      ReplaceAllWithoutOccurrence(path, JsonExt, SarifExt);
    }
  }
}

=== FILE: wrappers.dfy ===
/** The optional-value datatype shared by the parsers of this model. */
module Wrappers {

  datatype Option<+T> = None | Some(value: T)
}
